=== FILE: README.md ===
# Job ingestion and warehouse upload handlers, modelled in Dafny

This project models the core of a remote-staffing back end made of three
serverless handlers:

- **Job ingestion** (`jd_ingestion_lambda/lambda_function.py`). It fetches
  postings from Adzuna for a list of countries and maps each search result
  to a posting. Each posting gets an identity: the SHA-256 of
  `source|title|company|city|country`, lower-cased. It then walks the batch
  once. Ids already seen in the run are skipped. Every other posting is
  written with a conditional insert that succeeds only when no item with
  that id exists. Each item also carries a quality score (apply link 50,
  salary 30, company 10, city 10) and a display location.
- **Candidate upload** (`uploadCandidate/lambda_function.py`). It validates
  name, email and résumé text and lists the columns of the candidate table.
  `choose_column` maps each field to a column: an exact match in candidate
  order first, then the first column whose name contains a candidate. It
  then inserts one row.
- **Job-description upload** (`uploadJD/lambda_function.py`). It validates
  title and description. `find_desc_column` looks for the `JOB_TITLE` column
  and the first description column in candidate order, and the handler
  inserts one row.

The modules follow that structure:

- `Wrappers`: `Option`.
- `Values`: Python truthiness, and how an f-string renders `None`.
- `Text`: ASCII case mapping, `strip`, truncation and substring search.
- `Identity`: the identity key and the job id.
- `Posting`: postings and items, the apply link, quality and location.
- `Adzuna`: result mapping and the loop over countries.
- `Ingestion`: the dedup-and-insert loop and the handler.
- `ColumnSearch`, `CandidateUpload`, `JobDescriptionUpload`: column
  matching and the two upload handlers.
- `Warehouse`: what those two handlers see of the data warehouse, and
  their replies.
- `Status`: the HTTP status codes all three handlers answer with.

Everything outside these functions is an input:

- SHA-256 is a function parameter.
- The Adzuna HTTP request is a function from country and query to a page
  or a failure.
- The posting table is a map from job id to item. The set of batch
  positions whose insert raises for reasons other than the condition
  (throttling, network) is a parameter.
- The warehouse is either unreachable, or reachable with a column list and
  one of three insert outcomes: the row is written and nothing raises; the
  insert is refused and nothing is written; or the row is written and a
  later call in the same `try` (`commit`, `close`) raises.

The ingestion loop is modelled twice:

- `Ingestion.Ingest` is a fold of one loop iteration (`Ingestion.Step`)
  over the prefixes of the batch.
- `Ingestion.IngestBatch` is the imperative loop as written, and is proved
  to compute exactly that fold.

The properties are proved about the fold.

## Model

| member | source | states |
|---|---|---|
| Identity.IdentityKey | jd_ingestion_lambda/lambda_function.py:30-31 | the key agrees, character by character up to ASCII case, with the five rendered fields joined by four `\|`, and it holds no ASCII upper-case letter: it is the lower-cased join. Its length is the fields' lengths plus four |
| Identity.JobIdCaseInsensitive | jd_ingestion_lambda/lambda_function.py:30-32 | postings whose five fields agree up to ASCII case get the same key and therefore the same job id |
| Identity.MissingFieldMatchesNoneText | jd_ingestion_lambda/lambda_function.py:31 | a missing city renders as `None`, so it gets the same key as a city spelled "none" in any case: the two postings collide |
| Identity.DelimiterInFieldCollides | jd_ingestion_lambda/lambda_function.py:31 | the fields are not escaped: source "adzuna\|dev" with title "ops" and source "adzuna" with title "dev\|ops" give the same key |
| Posting.NormalizeApplyUrl | jd_ingestion_lambda/lambda_function.py:34-41 | the result is one of the four links. It is truthy iff some link is, and then it is the first truthy link in priority order. Otherwise it is the generic `url` field itself (None or ""), as Python's `or` yields the last operand |
| Posting.NoLinksNoApplyUrl | jd_ingestion_lambda/lambda_function.py:36-41 | a posting with every link missing has no apply link |
| Posting.ComputeQuality | jd_ingestion_lambda/lambda_function.py:48-58 | the score is a multiple of 10 in 0..100. It is 0 iff no signal is truthy and 100 iff all four are |
| Posting.QualityMonotone | jd_ingestion_lambda/lambda_function.py:48-58 | making any input truthy never lowers the score |
| Posting.QualityWeights | jd_ingestion_lambda/lambda_function.py:50-57 | each signal adds exactly its weight: apply link 50, either salary bound 30, company 10, city 10 |
| Posting.FalsyInputsAddNothing | jd_ingestion_lambda/lambda_function.py:50-57 | an empty string or a zero salary counts as absent, exactly like None |
| Posting.MakeItem | jd_ingestion_lambda/lambda_function.py:136-162 | the item carries the id and the posting's title, company, city, country, source, description and salaries unchanged. Its location is `Posting.Location` of city and country, so `city, country` for a truthy city and the bare country otherwise. Its apply link is `Posting.NormalizeApplyUrl` of the posting, the first truthy link in priority order. Its quality is `Posting.ComputeQuality` of that link, the salaries, the company and the city: a multiple of 10 in 0..100 built from the weights 50/30/10/10 |
| Posting.Location | jd_ingestion_lambda/lambda_function.py:142 | the location always ends with the country. It is longer than the country iff the city is truthy, and then it is exactly `city, country` |
| Text.Truncate | jd_ingestion_lambda/lambda_function.py:90 | slicing `[:n]` keeps the first `min(n, len)` characters, as a prefix |
| Text.Strip | jd_ingestion_lambda/lambda_function.py:67 | `strip()` returns a slice of the text that neither starts nor ends with whitespace. Everything before and after that slice is whitespace |
| Adzuna.CountryCode | jd_ingestion_lambda/lambda_function.py:67 | the code has the length of the stripped entry and agrees with it character by character up to ASCII case. It holds no ASCII upper-case letter and neither starts nor ends with whitespace |
| Adzuna.CodeIsItself | jd_ingestion_lambda/lambda_function.py:67 | an entry that is already lower-case and has no surrounding whitespace is used unchanged |
| Adzuna.CountryCodeIdempotent | jd_ingestion_lambda/lambda_function.py:67 | normalising a normalised entry changes nothing |
| Adzuna.DefaultCountriesAreCodes | jd_ingestion_lambda/lambda_function.py:20-23 | each of the twelve default countries is requested under its own name |
| Adzuna.MapResult | jd_ingestion_lambda/lambda_function.py:80-96 | one result becomes a posting iff its `area` list is not empty. Source "adzuna", upper-cased country, last area entry as city (None when absent), description the first `min(500, len)` characters of the text ("" when absent), redirect link as apply link, salaries copied |
| Adzuna.MapPage | jd_ingestion_lambda/lambda_function.py:80-96 | a page maps iff every result maps, and then result k becomes posting k |
| Adzuna.FetchAdzuna | jd_ingestion_lambda/lambda_function.py:63-98 | the fetch yields postings iff every country's request succeeds and its page maps (one failure loses every country). The postings are then, in country order, each country's mapped page, concatenated. Every posting has source "adzuna", a description of at most 500 characters and an upper-case country |
| Adzuna.CountryPage | jd_ingestion_lambda/lambda_function.py:66-96 | one country's request and page mapping succeed iff the request does not fail and every result on the page maps. Then there is one posting per result, in page order: posting k is result k mapped with the country's code, and every posting is well formed |
| Adzuna.AdzunaApplyUrl | jd_ingestion_lambda/lambda_function.py:91 | for an Adzuna posting the chosen apply link is its redirect link when truthy, and None otherwise |
| Ingestion.Ids | jd_ingestion_lambda/lambda_function.py:115-132 | every posting's id is among the batch's distinct ids |
| Ingestion.FirstIndex | jd_ingestion_lambda/lambda_function.py:119-132 | the position of the first posting with a given id: it carries the id and no earlier posting does |
| Ingestion.ConditionalPut | jd_ingestion_lambda/lambda_function.py:164-171 | the insert takes effect iff the id is not stored and the call does not fail, and then it adds exactly that id with that item |
| Ingestion.StepOutcome | jd_ingestion_lambda/lambda_function.py:128-171 | an id already seen is skipped with no change. Otherwise the posting counts as stored iff its id is not stored and its insert does not fail. Only then does the store change, and only at that id |
| Ingestion.Ingest | jd_ingestion_lambda/lambda_function.py:115-171 | the loop as a fold of one iteration over the batch: every posting is either stored or skipped, so the counters add up to the batch size |
| Ingestion.IngestSeenIds | jd_ingestion_lambda/lambda_function.py:115-132 | after the loop, `seen` holds exactly the batch's distinct ids |
| Ingestion.IngestNeverOverwrites | jd_ingestion_lambda/lambda_function.py:164-168 | no stored item is ever replaced, and every id the store gains belongs to a posting of the batch |
| Ingestion.IngestCountsNewIds | jd_ingestion_lambda/lambda_function.py:115-171 | `stored` equals the number of ids the store gained |
| Ingestion.IngestStoredAtMostDistinct | jd_ingestion_lambda/lambda_function.py:115-171 | `stored` is at most the number of distinct ids in the batch |
| Ingestion.IngestFirstPostingWins | jd_ingestion_lambda/lambda_function.py:119-171 | each gained id holds the item built from the first posting of the batch with that id |
| Ingestion.Visit | jd_ingestion_lambda/lambda_function.py:128-171 | one pass of the loop body, written as the handler writes it, does exactly what one `Step` of the fold does |
| Ingestion.IngestBatch | jd_ingestion_lambda/lambda_function.py:115-171 | the loop as written computes the fold `Ingest`. `stored + skipped` is the batch size, nothing is overwritten, and `stored` counts the new ids |
| Ingestion.IngestWithoutFailures | jd_ingestion_lambda/lambda_function.py:115-171 | without transport failures the store ends with every id of the batch, and `stored` is the number of batch ids not stored before |
| Ingestion.AllKnownStoresNothing | jd_ingestion_lambda/lambda_function.py:164-171 | a batch whose ids are all stored already stores nothing, skips everything and leaves the store unchanged |
| Ingestion.RerunStoresNothing | jd_ingestion_lambda/lambda_function.py:115-171 | re-running a batch after a clean run stores nothing and changes nothing, whatever fails the second time |
| Ingestion.InBatchDuplicate | jd_ingestion_lambda/lambda_function.py:128-132 | two postings with one id in a batch: the first is stored and the second is skipped |
| Ingestion.Countries | jd_ingestion_lambda/lambda_function.py:20-23 | a configured list is used as given; without one the twelve default codes, from "gb" to "mx", are used |
| Ingestion.AllJobs | jd_ingestion_lambda/lambda_function.py:107-112 | when every country succeeds the batch is the countries' mapped pages concatenated in order; when any country fails the exception is swallowed and the batch is empty. Every posting is well formed |
| Ingestion.IngestionHandler | jd_ingestion_lambda/lambda_function.py:104-181 | the reply is always 200 and names the one source "adzuna". Without a configured country list the twelve default countries are fetched. The counts add up to the number of fetched postings, and a failed fetch gives 0/0 and no change. Nothing is overwritten. `stored` counts the new ids and is at most the number of distinct ids in the batch. Every id the store gains is a batch id, and without transport failures the store ends with every batch id |
| ColumnSearch.FirstExact | uploadCandidate/lambda_function.py:51-54 | the result is Some iff some candidate is a column, and then it is the first such candidate in candidate order |
| ColumnSearch.FirstExactSameMembers | uploadCandidate/lambda_function.py:51-54 | the exact-match search tests the columns only for membership: column lists with the same members give the same result |
| CandidateUpload.FirstMentioning | uploadCandidate/lambda_function.py:56-59 | the result is Some iff some column contains a candidate, and then it is the first such column in column order |
| CandidateUpload.ChooseColumn | uploadCandidate/lambda_function.py:50-60 | the result is a column containing a candidate. It is None iff no column contains one. An exact match wins in candidate order, and otherwise the first containing column wins |
| CandidateUpload.ChosenColumnNonEmpty | uploadCandidate/lambda_function.py:84-89 | with non-empty candidates a chosen column is never the empty name, so the truthiness guard rejects only a missing match |
| CandidateUpload.UploadCandidate | uploadCandidate/lambda_function.py:62-103 | 400 iff a field is missing or empty, without contacting the warehouse. A row is left in the table iff the body is complete, the warehouse is reachable, all three fields map to columns and the insert writes. The row uses the chosen columns of the upper-cased column list and the body's values. The reply is 200 iff, in addition, nothing raises after the write. A call raising after the write (`commit`, `close`) gives 500 although the row stays. An unmappable field, an unreachable warehouse or a refused insert gives 500 with no row |
| CandidateUpload.IncompleteBodyIgnoresWarehouse | uploadCandidate/lambda_function.py:71-72 | the reply to an incomplete body does not depend on the warehouse |
| JobDescriptionUpload.FindDescColumn | uploadJD/lambda_function.py:35-50 | the column list comes back upper-cased. Without `JOB_TITLE` there is no description column. Otherwise the result is Some iff a candidate is a column, and then it is the first candidate in candidate order |
| JobDescriptionUpload.DescColumnIgnoresColumnOrder | uploadJD/lambda_function.py:41-50 | the description column depends only on which names the table has: two column lists with the same members, in any order, give the same choice |
| JobDescriptionUpload.UploadJobDescription | uploadJD/lambda_function.py:52-87 | 400 iff title or description is missing or empty, without contacting the warehouse. A row is left in the table iff the body is complete, the warehouse is reachable, a description column is found and the insert writes; it goes into that column with the body's values. The reply is 200 iff, in addition, the commit does not raise; a commit that raises after the write gives 500 although the row stays. No such column, an unreachable warehouse or a refused insert gives 500 with no row |
| JobDescriptionUpload.IncompleteJobIgnoresWarehouse | uploadJD/lambda_function.py:60-61 | the reply to an incomplete body does not depend on the warehouse |

## Left out

- HTTP, AWS Systems Manager and Snowflake connections, and DynamoDB calls: their outcomes are inputs (a page or failure per country, a set of failing insert positions, a reachable or unreachable warehouse).
- SHA-256 itself: the digest is a parameter, and nothing is assumed about its injectivity. Distinct keys are not proved to give distinct ids.
- `to_decimal`, latitude/longitude and the creation timestamp: they are numeric or clock conversions that no decision depends on, so the stored item omits them.
- Response bodies and JSON encoding: the upload replies carry the status and the inserted row, and the ingestion reply carries the status, the counters, the source list and the store; none carries the message text.
- Unicode: `lower`, `upper` and `strip` are modelled on ASCII letters and ASCII whitespace only.
- JSON `null` inside a search result (a `null` company object or description) raises in the source. The model treats a missing field as absent and does not model a present `null`.
- Request bodies the upload handlers cannot read are not modelled; the catch-all handler answers each with 500 where the model's parsed body would give 400 or an insert:
  - a body that is not valid JSON;
  - an event whose `body` is `null`, or a JSON body that is not an object (`null`, a list), on which `body.get` raises (uploadCandidate lines 65-67, uploadJD lines 55-57);
  - in the job-description handler, a body that is already an object rather than a string: `json.loads` raises on it (uploadJD line 55), while the candidate handler accepts it (uploadCandidate line 65).
- Field values that are not strings: the model's fields are optional strings, so a number such as `"name": 0` (falsy, 400) or `"name": 5` (truthy, inserted) is not expressed.
- Ingestion.ConditionalPut: assumes the store changes only through this run's successful puts. A put that raises is taken not to have written; but a timed-out attempt can still be applied by the server, after which the client's retry fails the condition and the posting is counted as skipped although its id was stored. A concurrent run can also write between this run's puts. Under either, "`stored` counts the new ids" (`Ingestion.IngestCountsNewIds`, `Ingestion.IngestBatch`, `Ingestion.IngestionHandler`) does not hold.
- The country setting is taken as an already split list; splitting the environment value on commas is not modelled.
- The scoring handler under `ml scoring/` is not part of this model.
- Ingestion.Ids: its contract states only that every posting's id is included; that every member is some posting's id is what `Ingestion.FirstIndex` provides for each member.
- Ingestion.Step: its own contract states only the counters and `seen`; what it does to the store is stated by `Ingestion.StepOutcome`.
- The `query` default: only a missing key selects "software engineer"; a query that is present is used as is.

## Behaviour of the code worth knowing

- A missing identity field is rendered by the f-string as the text `None`, which lower-cases to `none`. So a missing city and the city "none" collide (`Identity.MissingFieldMatchesNoneText`).
- When no link is truthy, the apply link is whatever the last operand of the `or` chain holds: the raw `url` value, which may be `""` as well as `None`.
- Any failing country, or any result with an empty `area` list, raises out of `fetch_adzuna`. The handler then ingests an empty batch, so the postings of every country are lost, not only those of the failing one.

=== FILE: adzuna.dfy ===
/**
 The Adzuna fetcher without its HTTP transport: the request for one country
 is a parameter that yields either a page of results or a failure, and what
 remains is the mapping of each result to a posting and the loop over the
 configured countries.
 */
module Adzuna {
  import opened Wrappers
  import opened Values
  import opened Text
  import opened Posting

  /** The fields of one Adzuna search result that the mapping reads; None means the key is absent. */
  datatype AdzunaResult = AdzunaResult(
    title: Option<string>,
    companyName: Option<string>,
    area: Option<seq<string>>,
    description: Option<string>,
    redirectUrl: Option<string>,
    salaryMin: Option<real>,
    salaryMax: Option<real>)

  /** The outcome of the search request for one country. */
  datatype Page = FetchFailed | Results(results: seq<AdzunaResult>)

  /** The search request: country code and query in, a page out. */
  type Fetcher = (string, string) -> Page

  const Source := "adzuna"
  const DescriptionLimit: nat := 500
  const DefaultCountries: seq<string> := ["gb", "us", "in", "ca", "au", "de", "fr", "nl", "es", "it", "br", "mx"]

  /**
   A configured country entry as used in the request URL
   (`country.strip().lower()`): the entry without surrounding whitespace,
   lower-cased.
   */
  function CountryCode(entry: string): (code: string)
    ensures |code| == |Strip(entry)|
    ensures forall i :: 0 <= i < |code| ==> !IsAsciiUpper(code[i]) && LowerChar(code[i]) == LowerChar(Strip(entry)[i])
    ensures code == [] || (!IsSpace(code[0]) && !IsSpace(code[|code| - 1]))
  {
    LowerTrimmed(Strip(entry));
    Lower(Strip(entry))
  }

  /** An entry that is already trimmed and lower-case is its own code. */
  lemma {:induction false} CodeIsItself(entry: string)
    requires forall i :: 0 <= i < |entry| ==> !IsAsciiUpper(entry[i])
    requires entry == [] || (!IsSpace(entry[0]) && !IsSpace(entry[|entry| - 1]))
    ensures CountryCode(entry) == entry
  {
    StripTrimmed(entry);
    LowerOfLower(entry);
  }

  /** Normalising an entry twice changes nothing: a code is used as it is. */
  lemma CountryCodeIdempotent(entry: string)
    ensures CountryCode(CountryCode(entry)) == CountryCode(entry)
  {
    CodeIsItself(CountryCode(entry));
  }

  /** Each default country is a code, used unchanged in its request. */
  lemma DefaultCountriesAreCodes()
    ensures forall k :: 0 <= k < |DefaultCountries| ==> CountryCode(DefaultCountries[k]) == DefaultCountries[k]
  {
    forall k | 0 <= k < |DefaultCountries|
      ensures CountryCode(DefaultCountries[k]) == DefaultCountries[k]
    {
      var c := DefaultCountries[k];
      assert |c| == 2 && IsAsciiLower(c[0]) && IsAsciiLower(c[1]);
      CodeIsItself(c);
    }
  }

  /** Indexing the last element of an empty `area` list raises, which aborts the whole fetch. */
  predicate Mappable(j: AdzunaResult) {
    j.area != Some([])
  }

  /** One search result turned into a posting; None when the mapping raises. */
  function MapResult(code: string, j: AdzunaResult): (r: Option<Job>)
    ensures r.Some? <==> Mappable(j)
    ensures r.Some? ==>
              && r.value.source == Source
              && r.value.country == Upper(code)
              && r.value.title == j.title
              && r.value.company == j.companyName
              && (j.area.None? ==> r.value.city.None?)
              && (j.area.Some? ==> r.value.city == Some(j.area.value[|j.area.value| - 1]))
              && |r.value.description| <= DescriptionLimit
              && (j.description.None? ==> r.value.description == "")
              && (j.description.Some? ==> r.value.description <= j.description.value)
              && (j.description.Some? && |j.description.value| <= DescriptionLimit ==>
                    r.value.description == j.description.value)
              && (j.description.Some? && |j.description.value| > DescriptionLimit ==>
                    |r.value.description| == DescriptionLimit)
              && r.value.applyUrl == j.redirectUrl
              && r.value.redirectUrl.None? && r.value.companyUrl.None? && r.value.url.None?
              && r.value.salaryMin == j.salaryMin && r.value.salaryMax == j.salaryMax
  {
    if j.area == Some([]) then None
    else
      var city := match j.area case None => None case Some(area) => Some(area[|area| - 1]);
      var description := match j.description case None => "" case Some(d) => d;
      Some(Job(Source, j.title, j.companyName, city, Upper(code), Truncate(description, DescriptionLimit),
               j.redirectUrl, None, None, None, j.salaryMin, j.salaryMax))
  }

  /** Every result of one page mapped in order; None when any mapping raises. */
  function MapPage(code: string, results: seq<AdzunaResult>): (r: Option<seq<Job>>)
    ensures r.Some? <==> forall k :: 0 <= k < |results| ==> Mappable(results[k])
    ensures r.Some? ==> |r.value| == |results|
                        && forall k :: 0 <= k < |results| ==> MapResult(code, results[k]) == Some(r.value[k])
    ensures r.Some? ==> forall k :: 0 <= k < |r.value| ==> WellFormedAdzunaJob(r.value[k])
  {
    if |results| == 0 then Some([])
    else
      match MapResult(code, results[0])
      case None => None
      case Some(job) =>
        match MapPage(code, results[1..])
        case None => None
        case Some(rest) => Some([job] + rest)
  }

  /** The request for this country succeeded and every result on its page maps. */
  predicate CountryOk(query: string, entry: string, fetch: Fetcher) {
    var page := fetch(CountryCode(entry), query);
    page.Results? && forall k :: 0 <= k < |page.results| ==> Mappable(page.results[k])
  }

  /** What the handler does with postings from Adzuna: a fixed source, short description, upper-case country. */
  predicate WellFormedAdzunaJob(job: Job) {
    && job.source == Source
    && |job.description| <= DescriptionLimit
    && (forall i :: 0 <= i < |job.country| ==> !IsAsciiLower(job.country[i]))
    && job.redirectUrl.None? && job.companyUrl.None? && job.url.None?
  }

  /** One country's request and the mapping of its page; None when either raises. */
  function CountryPage(query: string, entry: string, fetch: Fetcher): (r: Option<seq<Job>>)
    ensures r.Some? <==> CountryOk(query, entry, fetch)
    ensures r.Some? ==> forall i :: 0 <= i < |r.value| ==> WellFormedAdzunaJob(r.value[i])
    ensures r.Some? ==>
              var code := CountryCode(entry);
              var page := fetch(code, query);
              && page.Results?
              && |r.value| == |page.results|
              && forall k :: 0 <= k < |r.value| ==> MapResult(code, page.results[k]) == Some(r.value[k])
  {
    var code := CountryCode(entry);
    match fetch(code, query)
    case FetchFailed => None
    case Results(results) => MapPage(code, results)
  }

  /** The postings one country contributes when its request succeeds and its page maps; none otherwise. */
  function CountryJobs(query: string, entry: string, fetch: Fetcher): seq<Job> {
    match CountryPage(query, entry, fetch)
    case None => []
    case Some(jobs) => jobs
  }

  /** The postings of several countries, one block per country in country order. */
  function Concat(blocks: seq<seq<Job>>): seq<Job>
    decreases |blocks|
  {
    if |blocks| == 0 then [] else Concat(blocks[..|blocks| - 1]) + blocks[|blocks| - 1]
  }

  /** The block of postings of each configured country, in country order. */
  function CountryBlocks(query: string, countries: seq<string>, fetch: Fetcher): (blocks: seq<seq<Job>>)
    ensures |blocks| == |countries|
    ensures forall k :: 0 <= k < |countries| ==> blocks[k] == CountryJobs(query, countries[k], fetch)
  {
    seq(|countries|, k requires 0 <= k < |countries| => CountryJobs(query, countries[k], fetch))
  }

  /**
   The fetch over all configured countries. Any failure (an HTTP error or a
   result that cannot be mapped) escapes the loop, so the postings of the
   countries already fetched are lost as well: the result is all or nothing.
   */
  function FetchAdzuna(query: string, countries: seq<string>, fetch: Fetcher): (r: Option<seq<Job>>)
    ensures r.Some? <==> forall k :: 0 <= k < |countries| ==> CountryOk(query, countries[k], fetch)
    ensures r.Some? ==> forall i :: 0 <= i < |r.value| ==> WellFormedAdzunaJob(r.value[i])
    ensures r.Some? ==> r.value == Concat(CountryBlocks(query, countries, fetch))
    decreases |countries|, 1
  {
    if |countries| == 0 then Some([])
    else
      var here := CountryPage(query, countries[0], fetch);
      var rest := FetchAdzuna(query, countries[1..], fetch);
      FetchFrontOk(query, countries, fetch);
      if here.None? || rest.None? then None
      else
        FetchFrontJobs(query, countries, fetch, here.value, rest.value);
        Some(here.value + rest.value)
  }

  /** One unrolling of the fetch loop: the first country and the rest succeed exactly when every country does. */
  lemma FetchFrontOk(query: string, countries: seq<string>, fetch: Fetcher)
    requires |countries| > 0
    ensures CountryPage(query, countries[0], fetch).Some? && FetchAdzuna(query, countries[1..], fetch).Some?
            <==> forall k :: 0 <= k < |countries| ==> CountryOk(query, countries[k], fetch)
    decreases |countries|, 0
  {
    if forall k :: 0 <= k < |countries| ==> CountryOk(query, countries[k], fetch) {
      AllOkRest(query, countries, fetch);
    }
    if CountryPage(query, countries[0], fetch).Some? && FetchAdzuna(query, countries[1..], fetch).Some? {
      RestOkAll(query, countries, fetch);
    }
  }

  lemma AllOkRest(query: string, countries: seq<string>, fetch: Fetcher)
    requires |countries| > 0
    requires forall k :: 0 <= k < |countries| ==> CountryOk(query, countries[k], fetch)
    ensures CountryOk(query, countries[0], fetch)
    ensures forall k :: 0 <= k < |countries[1..]| ==> CountryOk(query, countries[1..][k], fetch)
  {
    forall k | 0 <= k < |countries[1..]|
      ensures CountryOk(query, countries[1..][k], fetch)
    {
      assert countries[1..][k] == countries[k + 1];
    }
  }

  lemma RestOkAll(query: string, countries: seq<string>, fetch: Fetcher)
    requires |countries| > 0
    requires CountryOk(query, countries[0], fetch)
    requires forall k :: 0 <= k < |countries[1..]| ==> CountryOk(query, countries[1..][k], fetch)
    ensures forall k :: 0 <= k < |countries| ==> CountryOk(query, countries[k], fetch)
  {
    forall k | 0 <= k < |countries|
      ensures CountryOk(query, countries[k], fetch)
    {
      if k > 0 {
        assert countries[k] == countries[1..][k - 1];
      }
    }
  }

  /** One unrolling of the fetch loop: the postings are the first country's followed by the rest's, all well formed. */
  lemma FetchFrontJobs(query: string, countries: seq<string>, fetch: Fetcher, here: seq<Job>, rest: seq<Job>)
    requires |countries| > 0
    requires CountryPage(query, countries[0], fetch) == Some(here)
    requires FetchAdzuna(query, countries[1..], fetch) == Some(rest)
    ensures here + rest == Concat(CountryBlocks(query, countries, fetch))
    ensures forall i :: 0 <= i < |here + rest| ==> WellFormedAdzunaJob((here + rest)[i])
    decreases |countries|, 0
  {
    WellFormedConcat(here, rest);
    ConcatFront(query, countries, fetch);
  }

  /** Concatenating the blocks from the back agrees with taking the first block off the front. */
  lemma {:induction false} ConcatCons(blocks: seq<seq<Job>>)
    requires |blocks| > 0
    ensures Concat(blocks) == blocks[0] + Concat(blocks[1..])
    decreases |blocks|
  {
    var last := |blocks| - 1;
    if last > 0 {
      ConcatCons(blocks[..last]);
      assert blocks[..last][1..] == blocks[1..][..last - 1];
      assert blocks[..last][0] == blocks[0];
      assert blocks[1..][last - 1] == blocks[last];
    } else {
      assert Concat(blocks[..0]) == [];
    }
  }

  /** The postings of all countries are the first country's followed by the rest's. */
  lemma ConcatFront(query: string, countries: seq<string>, fetch: Fetcher)
    requires |countries| > 0
    ensures Concat(CountryBlocks(query, countries, fetch))
         == CountryJobs(query, countries[0], fetch) + Concat(CountryBlocks(query, countries[1..], fetch))
  {
    var blocks := CountryBlocks(query, countries, fetch);
    ConcatCons(blocks);
    assert blocks[1..] == CountryBlocks(query, countries[1..], fetch);
  }

  lemma WellFormedConcat(a: seq<Job>, b: seq<Job>)
    requires forall i :: 0 <= i < |a| ==> WellFormedAdzunaJob(a[i])
    requires forall i :: 0 <= i < |b| ==> WellFormedAdzunaJob(b[i])
    ensures forall i :: 0 <= i < |a + b| ==> WellFormedAdzunaJob((a + b)[i])
  {
    forall i | 0 <= i < |a + b|
      ensures WellFormedAdzunaJob((a + b)[i])
    {
      if i < |a| {
        assert (a + b)[i] == a[i];
      } else {
        assert (a + b)[i] == b[i - |a|];
      }
    }
  }

  /** For a posting built from an Adzuna result, the chosen apply link is the redirect link, if truthy. */
  lemma AdzunaApplyUrl(job: Job)
    requires WellFormedAdzunaJob(job)
    ensures NormalizeApplyUrl(job) == if Truthy(job.applyUrl) then job.applyUrl else None
  {
  }
}

=== FILE: candidate.dfy ===
/**
 The candidate upload handler: validate the three required fields, list the
 columns of the candidate table, map each field to a column by name, and
 insert one row.
 */
module CandidateUpload {
  import opened Wrappers
  import opened Values
  import opened Text
  import opened ColumnSearch
  import opened Warehouse
  import opened Status

  const NameCandidates: seq<string> := ["NAME", "FULL_NAME", "CANDIDATE_NAME", "FIRST_NAME"]
  const EmailCandidates: seq<string> := ["EMAIL", "EMAIL_ADDRESS", "CONTACT_EMAIL"]
  const ResumeCandidates: seq<string> := ["RESUME_TEXT", "RESUME", "CV_TEXT", "SUMMARY", "RESUME_CONTENT"]

  /** Some candidate occurs in the column name (`c in col` for some `c`). */
  predicate MentionsAny(col: string, candidates: seq<string>) {
    exists c | c in candidates :: Contains(col, c)
  }

  /** The first column, in column order, that mentions some candidate, or None. */
  function FirstMentioning(cols: seq<string>, candidates: seq<string>): (r: Option<string>)
    ensures r.Some? <==> exists k :: 0 <= k < |cols| && MentionsAny(cols[k], candidates)
    ensures r.Some? ==> exists k :: 0 <= k < |cols| && cols[k] == r.value && MentionsAny(r.value, candidates)
                                    && forall j :: 0 <= j < k ==> !MentionsAny(cols[j], candidates)
  {
    if |cols| == 0 then None
    else if MentionsAny(cols[0], candidates) then Some(cols[0])
    else
      var r := FirstMentioning(cols[1..], candidates);
      assert forall k :: 1 <= k < |cols| ==> cols[k] == cols[1..][k - 1];
      r
  }

  /**
   `choose_column`: an exact match in candidate order first; failing that,
   the first column in column order that contains some candidate.
   */
  function ChooseColumn(cols: seq<string>, candidates: seq<string>): (r: Option<string>)
    ensures r.Some? ==> r.value in cols && MentionsAny(r.value, candidates)
    ensures r.None? <==> forall k :: 0 <= k < |cols| ==> !MentionsAny(cols[k], candidates)
    ensures (exists k :: 0 <= k < |candidates| && candidates[k] in cols) ==>
              exists k :: 0 <= k < |candidates| && r == Some(candidates[k])
                          && forall j :: 0 <= j < k ==> candidates[j] !in cols
    ensures (forall k :: 0 <= k < |candidates| ==> candidates[k] !in cols) && r.Some? ==>
              exists k :: 0 <= k < |cols| && r == Some(cols[k]) && MentionsAny(cols[k], candidates)
                          && forall j :: 0 <= j < k ==> !MentionsAny(cols[j], candidates)
  {
    match FirstExact(candidates, cols)
    case Some(c) =>
      ContainsItself(c);
      assert exists k :: 0 <= k < |cols| && cols[k] == c && MentionsAny(cols[k], candidates);
      Some(c)
    case None => FirstMentioning(cols, candidates)
  }

  /** With non-empty candidates the chosen column is never the empty (falsy) name. */
  lemma ChosenColumnNonEmpty(cols: seq<string>, candidates: seq<string>)
    requires forall k :: 0 <= k < |candidates| ==> |candidates[k]| > 0
    ensures ChooseColumn(cols, candidates).Some? ==> |ChooseColumn(cols, candidates).value| > 0
  {
    var r := ChooseColumn(cols, candidates);
    if r.Some? {
      var c :| c in candidates && Contains(r.value, c);
      ContainsLonger(r.value, c);
    }
  }

  /** The request body's three fields; None when a key is absent. */
  datatype Submission = Submission(name: Option<string>, email: Option<string>, resumeText: Option<string>)

  /** The row written: the three chosen columns and the three values. */
  datatype CandidateRow = CandidateRow(nameColumn: string, emailColumn: string, resumeColumn: string,
                                      name: string, email: string, resumeText: string)

  predicate Complete(body: Submission) {
    Truthy(body.name) && Truthy(body.email) && Truthy(body.resumeText)
  }

  /** The three column choices on the upper-cased column list all succeed. */
  predicate AllMapped(cols: seq<string>) {
    ChooseColumn(cols, NameCandidates).Some? && ChooseColumn(cols, EmailCandidates).Some?
    && ChooseColumn(cols, ResumeCandidates).Some?
  }

  /**
   `upload_candidate_handler`, from the parsed body and the state of the
   warehouse. A row is left in the table exactly when the insert is issued
   and writes; the reply is 200 only when nothing raises afterwards.
   */
  function UploadCandidate(body: Submission, wh: Warehouse): (r: Reply<CandidateRow>)
    ensures r.status == BadRequest <==> !Complete(body)
    ensures r.status == BadRequest ==> !r.touchedWarehouse && r.inserted.None?
    ensures r.status == Ok || r.status == BadRequest || r.status == ServerError
    ensures r.status == Ok ==> r.inserted.Some?
    ensures r.inserted.Some? <==>
              Complete(body) && wh.Reachable? && AllMapped(UpperAll(wh.columnNames)) && wh.insert.RowWritten()
    ensures r.inserted.Some? && wh.Reachable? ==> (r.status == Ok <==> wh.insert == Committed)
    ensures r.inserted.Some? && wh.Reachable? ==>
              var cols := UpperAll(wh.columnNames);
              && r.inserted.value.nameColumn in cols
              && r.inserted.value.emailColumn in cols
              && r.inserted.value.resumeColumn in cols
              && Some(r.inserted.value.nameColumn) == ChooseColumn(cols, NameCandidates)
              && Some(r.inserted.value.emailColumn) == ChooseColumn(cols, EmailCandidates)
              && Some(r.inserted.value.resumeColumn) == ChooseColumn(cols, ResumeCandidates)
              && Some(r.inserted.value.name) == body.name
              && Some(r.inserted.value.email) == body.email
              && Some(r.inserted.value.resumeText) == body.resumeText
    ensures Complete(body) && wh.Reachable? && !AllMapped(UpperAll(wh.columnNames)) ==>
              r.status == ServerError && r.inserted.None?
    ensures Complete(body) && wh.Reachable? && wh.insert == Committed && AllMapped(UpperAll(wh.columnNames)) ==>
              r.status == Ok
    ensures Complete(body) && (wh.Unreachable? || wh.insert != Committed) ==>
              r.status == ServerError && r.touchedWarehouse
  {
    if !Complete(body) then Reply(BadRequest, false, None)
    else
      match wh
      case Unreachable => Reply(ServerError, true, None)
      case Reachable(names, insert) =>
        var cols := UpperAll(names);
        if |cols| == 0 then Reply(ServerError, true, None)
        else
          var nameCol := ChooseColumn(cols, NameCandidates);
          var emailCol := ChooseColumn(cols, EmailCandidates);
          var resumeCol := ChooseColumn(cols, ResumeCandidates);
          if nameCol.None? || emailCol.None? || resumeCol.None? then Reply(ServerError, true, None)
          else if insert == Refused then Reply(ServerError, true, None)
          else
            var row := CandidateRow(nameCol.value, emailCol.value, resumeCol.value,
                                    body.name.value, body.email.value, body.resumeText.value);
            Reply(if insert == Committed then Ok else ServerError, true, Some(row))
  }

  /** An incomplete body is answered without looking at the warehouse at all. */
  lemma IncompleteBodyIgnoresWarehouse(body: Submission, wh1: Warehouse, wh2: Warehouse)
    requires !Complete(body)
    ensures UploadCandidate(body, wh1) == UploadCandidate(body, wh2)
  {
  }
}

=== FILE: columnsearch.dfy ===
/** The exact-match column search both upload handlers share. */
module ColumnSearch {
  import opened Wrappers

  /**
   The first candidate, in candidate order, that is one of the columns
   (`for c in candidates: if c in cols: return c`), or None.
   */
  function FirstExact(candidates: seq<string>, cols: seq<string>): (r: Option<string>)
    ensures r.Some? <==> exists k :: 0 <= k < |candidates| && candidates[k] in cols
    ensures r.Some? ==> exists k :: 0 <= k < |candidates| && candidates[k] == r.value && r.value in cols
                                    && forall j :: 0 <= j < k ==> candidates[j] !in cols
  {
    if |candidates| == 0 then None
    else if candidates[0] in cols then Some(candidates[0])
    else
      var r := FirstExact(candidates[1..], cols);
      assert forall k :: 1 <= k < |candidates| ==> candidates[k] == candidates[1..][k - 1];
      r
  }

  /** Only membership in the columns matters: two column lists with the same members give the same choice. */
  lemma {:induction false} FirstExactSameMembers(candidates: seq<string>, cols: seq<string>, other: seq<string>)
    requires forall c :: c in cols <==> c in other
    ensures FirstExact(candidates, cols) == FirstExact(candidates, other)
    decreases |candidates|
  {
    if |candidates| > 0 && candidates[0] !in cols {
      FirstExactSameMembers(candidates[1..], cols, other);
    }
  }
}

=== FILE: identity.dfy ===
/**
 The content-derived identity of a job posting (`sha_job_id`): the five
 identity-bearing fields are rendered as an f-string would render them,
 joined with '|', lower-cased, and digested. The digest itself (SHA-256 in
 hex) is opaque here: it is a parameter, and no property below depends on
 what it computes, so in particular nothing claims it is injective.
 */
module Identity {
  import opened Wrappers
  import opened Values
  import opened Text

  /** A one-way digest of the key string, such as hex SHA-256. */
  type Digest = string -> string

  /** The string that is digested: lower case of `source|title|company|city|country`. */
  function IdentityKey(source: Option<string>, title: Option<string>, company: Option<string>,
                       city: Option<string>, country: Option<string>): (key: string)
    ensures |key| == |Render(source)| + |Render(title)| + |Render(company)|
                     + |Render(city)| + |Render(country)| + 4
    ensures forall i :: 0 <= i < |key| ==> !IsAsciiUpper(key[i])
    ensures SameUpToCase(key, Render(source) + "|" + Render(title) + "|" + Render(company) + "|"
                              + Render(city) + "|" + Render(country))
  {
    var joined := Render(source) + "|" + Render(title) + "|" + Render(company) + "|"
                  + Render(city) + "|" + Render(country);
    assert forall i :: 0 <= i < |joined| ==> LowerChar(Lower(joined)[i]) == LowerChar(joined[i]);
    Lower(joined)
  }

  function JobId(sha: Digest, source: Option<string>, title: Option<string>, company: Option<string>,
                 city: Option<string>, country: Option<string>): string
  {
    sha(IdentityKey(source, title, company, city, country))
  }

  /** Two strings that differ at most in the letter case of their characters. */
  predicate SameUpToCase(a: string, b: string) {
    |a| == |b| && forall i :: 0 <= i < |a| ==> LowerChar(a[i]) == LowerChar(b[i])
  }

  /** Two optional fields that are both missing, or both present and equal up to case. */
  predicate SameFieldUpToCase(a: Option<string>, b: Option<string>) {
    (a.None? && b.None?) || (a.Some? && b.Some? && SameUpToCase(a.value, b.value))
  }

  /** Lower-casing distributes over the joined fields. */
  lemma KeyByField(source: Option<string>, title: Option<string>, company: Option<string>,
                   city: Option<string>, country: Option<string>)
    ensures IdentityKey(source, title, company, city, country)
         == Lower(Render(source)) + "|" + Lower(Render(title)) + "|" + Lower(Render(company)) + "|"
            + Lower(Render(city)) + "|" + Lower(Render(country))
  {
    var a, b, c, d, e := Render(source), Render(title), Render(company), Render(city), Render(country);
    LowerConcat(a, "|");
    LowerConcat(a + "|", b);
    LowerConcat(a + "|" + b, "|");
    LowerConcat(a + "|" + b + "|", c);
    LowerConcat(a + "|" + b + "|" + c, "|");
    LowerConcat(a + "|" + b + "|" + c + "|", d);
    LowerConcat(a + "|" + b + "|" + c + "|" + d, "|");
    LowerConcat(a + "|" + b + "|" + c + "|" + d + "|", e);
    assert Lower("|") == "|";
  }

  lemma LowerConcat(a: string, b: string)
    ensures Lower(a + b) == Lower(a) + Lower(b)
  {
    assert forall i :: 0 <= i < |a + b| ==> Lower(a + b)[i] == (Lower(a) + Lower(b))[i];
  }

  lemma SameUpToCaseLower(a: string, b: string)
    requires SameUpToCase(a, b)
    ensures Lower(a) == Lower(b)
  {
    assert forall i :: 0 <= i < |a| ==> Lower(a)[i] == Lower(b)[i];
  }

  lemma SameFieldLower(a: Option<string>, b: Option<string>)
    requires SameFieldUpToCase(a, b)
    ensures Lower(Render(a)) == Lower(Render(b))
  {
    if a.Some? {
      SameUpToCaseLower(a.value, b.value);
    }
  }

  /** Changing the letter case of any identity field leaves the key, and so the id, unchanged. */
  lemma JobIdCaseInsensitive(sha: Digest,
                             s1: Option<string>, t1: Option<string>, c1: Option<string>, y1: Option<string>, n1: Option<string>,
                             s2: Option<string>, t2: Option<string>, c2: Option<string>, y2: Option<string>, n2: Option<string>)
    requires SameFieldUpToCase(s1, s2) && SameFieldUpToCase(t1, t2) && SameFieldUpToCase(c1, c2)
    requires SameFieldUpToCase(y1, y2) && SameFieldUpToCase(n1, n2)
    ensures IdentityKey(s1, t1, c1, y1, n1) == IdentityKey(s2, t2, c2, y2, n2)
    ensures JobId(sha, s1, t1, c1, y1, n1) == JobId(sha, s2, t2, c2, y2, n2)
  {
    KeyByField(s1, t1, c1, y1, n1);
    KeyByField(s2, t2, c2, y2, n2);
    SameFieldLower(s1, s2);
    SameFieldLower(t1, t2);
    SameFieldLower(c1, c2);
    SameFieldLower(y1, y2);
    SameFieldLower(n1, n2);
  }

  /** A missing field and the text "none" (in any case) yield the same key. */
  lemma MissingFieldMatchesNoneText(source: Option<string>, title: Option<string>, company: Option<string>,
                                    country: Option<string>, spelled: string)
    requires SameUpToCase(spelled, "none")
    ensures IdentityKey(source, title, company, None, country)
         == IdentityKey(source, title, company, Some(spelled), country)
  {
    KeyByField(source, title, company, None, country);
    KeyByField(source, title, company, Some(spelled), country);
    SameUpToCaseLower(spelled, "none");
    SameUpToCaseLower("None", "none");
  }

  /** A '|' inside a field can shift the field boundary without changing the key. */
  lemma DelimiterInFieldCollides(company: Option<string>, city: Option<string>, country: Option<string>)
    ensures IdentityKey(Some("adzuna|dev"), Some("ops"), company, city, country)
         == IdentityKey(Some("adzuna"), Some("dev|ops"), company, city, country)
  {
    var head1 := Render(Some("adzuna|dev")) + "|" + Render(Some("ops"));
    var head2 := Render(Some("adzuna")) + "|" + Render(Some("dev|ops"));
    assert head1 == "adzuna|dev|ops" == head2;
  }
}

=== FILE: ingestion.dfy ===
/**
 The ingestion run: fetch postings, then walk them once, skipping ids
 already seen in this run and attempting a conditional insert ("only if no
 item with this job id exists") for every other one. A failed insert, for
 whatever reason, is counted as skipped and the run goes on.

 The posting store is a map from job id to the stored item. Which inserts
 fail for transport reasons is not knowable here, so it is a parameter: the
 set of batch positions whose `put_item` raises regardless of the store.
 */
module Ingestion {
  import opened Wrappers
  import opened Posting
  import Identity
  import Adzuna
  import opened Status

  type Store = map<string, Item>

  /** How a posting's job id is computed; the handler uses `JobIdOf` with the digest. */
  type JobKey = Job -> string

  /** How the stored item is built from a posting and its id; the handler uses `MakeItem`. */
  type ItemOf = (string, Job) -> Item

  /** The loop variables of the run: the in-run `seen` set, both counters and the store. */
  datatype RunState = RunState(seen: set<string>, stored: nat, skipped: nat, store: Store)

  /** The distinct job ids of a batch. */
  function Ids(idOf: JobKey, jobs: seq<Job>): (ids: set<string>)
    ensures forall i :: 0 <= i < |jobs| ==> idOf(jobs[i]) in ids
    decreases |jobs|
  {
    if |jobs| == 0 then {}
    else
      var prefix := jobs[..|jobs| - 1];
      assert forall i :: 0 <= i < |prefix| ==> prefix[i] == jobs[i];
      Ids(idOf, prefix) + {idOf(jobs[|jobs| - 1])}
  }

  /** The position of the first posting in the batch that carries `id`. */
  function FirstIndex(idOf: JobKey, jobs: seq<Job>, id: string): (k: nat)
    requires id in Ids(idOf, jobs)
    ensures k < |jobs| && idOf(jobs[k]) == id
    ensures forall j :: 0 <= j < k ==> idOf(jobs[j]) != id
    decreases |jobs|
  {
    var prefix := jobs[..|jobs| - 1];
    if id in Ids(idOf, prefix) then FirstIndex(idOf, prefix, id) else |jobs| - 1
  }

  /**
   `put_item` with the condition `attribute_not_exists(job_id)`: it takes
   effect only when no item with this id is stored and the call itself does
   not fail; otherwise it raises and the store is unchanged.
   */
  function ConditionalPut(store: Store, id: string, item: Item, transportFails: bool): (r: Option<Store>)
    ensures r.Some? <==> id !in store && !transportFails
    ensures r.Some? ==> r.value == store[id := item]
    ensures r.Some? ==> r.value.Keys == store.Keys + {id}
  {
    if id in store || transportFails then None else Some(store[id := item])
  }

  /** One iteration of the loop over the batch, for the posting at position `index`. */
  function Step(idOf: JobKey, itemOf: ItemOf, st: RunState, job: Job, index: nat, failing: set<nat>): (r: RunState)
    ensures r.stored + r.skipped == st.stored + st.skipped + 1
    ensures r.seen == st.seen + {idOf(job)}
  {
    var id := idOf(job);
    if id in st.seen then
      st.(skipped := st.skipped + 1)
    else
      match ConditionalPut(st.store, id, itemOf(id, job), index in failing)
      case Some(store') => RunState(st.seen + {id}, st.stored + 1, st.skipped, store')
      case None => RunState(st.seen + {id}, st.stored, st.skipped + 1, st.store)
  }

  /**
   What one step does to the store: an id seen earlier in the run is skipped
   without a call; otherwise the posting is stored exactly when its id is
   not in the store and its insert does not fail, and then only that id is
   written. In every other case the store is unchanged.
   */
  lemma StepOutcome(idOf: JobKey, itemOf: ItemOf, st: RunState, job: Job, index: nat, failing: set<nat>)
    ensures var r := Step(idOf, itemOf, st, job, index, failing);
            && (idOf(job) in st.seen ==> r.store == st.store && r.skipped == st.skipped + 1)
            && (r.stored == st.stored + 1 <==> idOf(job) !in st.seen && idOf(job) !in st.store && index !in failing)
            && (r.stored == st.stored || r.stored == st.stored + 1)
            && (r.stored == st.stored ==> r.store == st.store)
            && (r.stored == st.stored + 1 ==> r.store == st.store[idOf(job) := itemOf(idOf(job), job)])
  {
  }

  /**
   The whole loop over a batch, as the fold of `Step` over its prefixes.
   Counts add up to the batch size. The lemmas after it add that `seen` ends
   as the batch's distinct ids, that nothing stored is ever overwritten and
   the store only gains ids of this batch, that `stored` is exactly the
   number of ids gained and that each gained id holds the item of its first
   posting.
   */
  function Ingest(idOf: JobKey, itemOf: ItemOf, jobs: seq<Job>, store: Store, failing: set<nat>): (r: RunState)
    ensures r.stored + r.skipped == |jobs|
    decreases |jobs|
  {
    if |jobs| == 0 then RunState({}, 0, 0, store)
    else
      var last := |jobs| - 1;
      Step(idOf, itemOf, Ingest(idOf, itemOf, jobs[..last], store, failing), jobs[last], last, failing)
  }

  /** At the end of the loop `seen` holds exactly the batch's distinct ids. */
  lemma {:induction false} IngestSeenIds(idOf: JobKey, itemOf: ItemOf, jobs: seq<Job>, store: Store, failing: set<nat>)
    ensures Ingest(idOf, itemOf, jobs, store, failing).seen == Ids(idOf, jobs)
    decreases |jobs|
  {
    if |jobs| > 0 {
      IngestSeenIds(idOf, itemOf, jobs[..|jobs| - 1], store, failing);
    }
  }

  /** The run never overwrites a stored item, and every id it adds belongs to a posting of the batch. */
  lemma {:induction false} IngestNeverOverwrites(idOf: JobKey, itemOf: ItemOf, jobs: seq<Job>, store: Store, failing: set<nat>)
    ensures var r := Ingest(idOf, itemOf, jobs, store, failing);
            forall k :: k in store ==> k in r.store && r.store[k] == store[k]
    ensures var r := Ingest(idOf, itemOf, jobs, store, failing);
            forall k :: k in r.store ==> k in store || k in Ids(idOf, jobs)
    decreases |jobs|
  {
    if |jobs| > 0 {
      var last := |jobs| - 1;
      var prefix := jobs[..last];
      IngestNeverOverwrites(idOf, itemOf, prefix, store, failing);
      var before := Ingest(idOf, itemOf, prefix, store, failing);
      var r := Ingest(idOf, itemOf, jobs, store, failing);
      assert Ids(idOf, jobs) == Ids(idOf, prefix) + {idOf(jobs[last])};
      if r.stored == before.stored + 1 {
        assert idOf(jobs[last]) !in before.store;
      }
    }
  }

  /** Adding a fresh key to a set adds one to its part outside a fixed subset; keeping the set adds nothing. */
  lemma GainKeys(before: set<string>, after: set<string>, base: set<string>, id: string, gained: nat)
    requires base <= before
    requires (gained == 1 && id !in before && after == before + {id}) || (gained == 0 && after == before)
    ensures |after - base| == |before - base| + gained
  {
    if gained == 1 {
      assert after - base == (before - base) + {id};
    }
  }

  /** One step gains a store id exactly when it counts a posting as stored. */
  lemma StepGain(idOf: JobKey, itemOf: ItemOf, st: RunState, job: Job, index: nat, failing: set<nat>, store: Store)
    requires store.Keys <= st.store.Keys
    ensures var r := Step(idOf, itemOf, st, job, index, failing);
            |r.store.Keys - store.Keys| == |st.store.Keys - store.Keys| + (r.stored - st.stored)
  {
    var id := idOf(job);
    var r := Step(idOf, itemOf, st, job, index, failing);
    if r.stored == st.stored + 1 {
      assert r.store.Keys == st.store.Keys + {id};
    }
    GainKeys(st.store.Keys, r.store.Keys, store.Keys, id, r.stored - st.stored);
  }

  /** `stored` is exactly the number of ids the store gained. */
  lemma {:induction false} IngestCountsNewIds(idOf: JobKey, itemOf: ItemOf, jobs: seq<Job>, store: Store, failing: set<nat>)
    ensures Ingest(idOf, itemOf, jobs, store, failing).stored
            == |Ingest(idOf, itemOf, jobs, store, failing).store.Keys - store.Keys|
    decreases |jobs|
  {
    if |jobs| > 0 {
      var last := |jobs| - 1;
      IngestCountsNewIds(idOf, itemOf, jobs[..last], store, failing);
      var before := Ingest(idOf, itemOf, jobs[..last], store, failing);
      IngestNeverOverwrites(idOf, itemOf, jobs[..last], store, failing);
      StepGain(idOf, itemOf, before, jobs[last], last, failing, store);
    }
  }

  /** A subset is no larger than its superset. */
  lemma SubsetNoLarger(a: set<string>, b: set<string>)
    requires a <= b
    ensures |a| <= |b|
  {
    assert b == a + (b - a);
  }

  /** A run stores at most one posting per distinct id of the batch. */
  lemma IngestStoredAtMostDistinct(idOf: JobKey, itemOf: ItemOf, jobs: seq<Job>, store: Store, failing: set<nat>)
    ensures Ingest(idOf, itemOf, jobs, store, failing).stored <= |Ids(idOf, jobs)|
  {
    var r := Ingest(idOf, itemOf, jobs, store, failing);
    IngestCountsNewIds(idOf, itemOf, jobs, store, failing);
    IngestNeverOverwrites(idOf, itemOf, jobs, store, failing);
    SubsetNoLarger(r.store.Keys - store.Keys, Ids(idOf, jobs));
  }

  /** Every id the store gained holds the item built from the first posting of the batch with that id. */
  lemma {:induction false} IngestFirstPostingWins(idOf: JobKey, itemOf: ItemOf, jobs: seq<Job>, store: Store, failing: set<nat>)
    ensures var r := Ingest(idOf, itemOf, jobs, store, failing);
            forall k :: k in r.store && k !in store ==>
              k in Ids(idOf, jobs) && r.store[k] == itemOf(k, jobs[FirstIndex(idOf, jobs, k)])
    decreases |jobs|
  {
    if |jobs| > 0 {
      var last := |jobs| - 1;
      var prefix := jobs[..last];
      IngestFirstPostingWins(idOf, itemOf, prefix, store, failing);
      var before := Ingest(idOf, itemOf, prefix, store, failing);
      var r := Ingest(idOf, itemOf, jobs, store, failing);
      var id := idOf(jobs[last]);
      IngestSeenIds(idOf, itemOf, prefix, store, failing);
      forall k | k in r.store && k !in store
        ensures k in Ids(idOf, jobs) && r.store[k] == itemOf(k, jobs[FirstIndex(idOf, jobs, k)])
      {
        if k in before.store {
          assert k in Ids(idOf, prefix);
          var f := FirstIndex(idOf, prefix, k);
          assert FirstIndex(idOf, jobs, k) == f;
          assert jobs[f] == prefix[f];
          if r.stored == before.stored + 1 {
            assert k != id;
          }
        } else {
          assert r.stored == before.stored + 1 && k == id;
          assert id !in Ids(idOf, prefix);
          assert FirstIndex(idOf, jobs, id) == last;
        }
      }
    }
  }

  /**
   The imperative loop of the handler. It computes exactly the fold above,
   and so inherits its promises.
   */
  method IngestBatch(idOf: JobKey, itemOf: ItemOf, jobs: seq<Job>, store: Store, failing: set<nat>)
    returns (stored: nat, skipped: nat, finalStore: Store)
    ensures var r := Ingest(idOf, itemOf, jobs, store, failing);
            r.stored == stored && r.skipped == skipped && r.store == finalStore
    ensures stored + skipped == |jobs|
    ensures forall k :: k in store ==> k in finalStore && finalStore[k] == store[k]
    ensures stored == |finalStore.Keys - store.Keys|
  {
    var seen: set<string> := {};
    stored, skipped, finalStore := 0, 0, store;
    var i := 0;
    assert Ingest(idOf, itemOf, jobs[..0], store, failing) == RunState(seen, stored, skipped, finalStore);
    while i < |jobs|
      invariant i <= |jobs|
      invariant RunState(seen, stored, skipped, finalStore) == Ingest(idOf, itemOf, jobs[..i], store, failing)
    {
      seen, stored, skipped, finalStore := Visit(idOf, itemOf, seen, stored, skipped, finalStore, jobs[i], i, failing);
      IngestPrefixStep(idOf, itemOf, jobs, i, store, failing);
      ghost var after := Ingest(idOf, itemOf, jobs[..i + 1], store, failing);
      assert RunState(seen, stored, skipped, finalStore) == after;
      i := i + 1;
      assert after == Ingest(idOf, itemOf, jobs[..i], store, failing);
    }
    assert jobs[..|jobs|] == jobs;
    IngestSummary(idOf, itemOf, jobs, store, failing);
  }

  /**
   The body of the handler's loop for the posting at position `index`: skip
   an id already seen; otherwise remember it and attempt the conditional
   insert, counting the posting as stored or skipped by its outcome.
   */
  method Visit(idOf: JobKey, itemOf: ItemOf, seen: set<string>, stored: nat, skipped: nat, store: Store,
               job: Job, index: nat, failing: set<nat>)
    returns (seen': set<string>, stored': nat, skipped': nat, store': Store)
    ensures RunState(seen', stored', skipped', store')
         == Step(idOf, itemOf, RunState(seen, stored, skipped, store), job, index, failing)
  {
    seen', stored', skipped', store' := seen, stored, skipped, store;
    var jobId := idOf(job);
    if jobId in seen {
      skipped' := skipped + 1;
    } else {
      seen' := seen + {jobId};
      var put := ConditionalPut(store, jobId, itemOf(jobId, job), index in failing);
      if put.Some? {
        store' := put.value;
        stored' := stored + 1;
      } else {
        skipped' := skipped + 1;
      }
    }
  }

  /** The promises of the fold that the handler's loop passes on, gathered in one place. */
  lemma IngestSummary(idOf: JobKey, itemOf: ItemOf, jobs: seq<Job>, store: Store, failing: set<nat>)
    ensures var r := Ingest(idOf, itemOf, jobs, store, failing);
            && r.stored + r.skipped == |jobs|
            && (forall k :: k in store ==> k in r.store && r.store[k] == store[k])
            && r.stored == |r.store.Keys - store.Keys|
  {
    IngestNeverOverwrites(idOf, itemOf, jobs, store, failing);
    IngestCountsNewIds(idOf, itemOf, jobs, store, failing);
  }

  /** Extending the processed prefix by one posting is one more `Step`. */
  lemma IngestPrefixStep(idOf: JobKey, itemOf: ItemOf, jobs: seq<Job>, i: nat, store: Store, failing: set<nat>)
    requires i < |jobs|
    ensures Ingest(idOf, itemOf, jobs[..i + 1], store, failing)
         == Step(idOf, itemOf, Ingest(idOf, itemOf, jobs[..i], store, failing), jobs[i], i, failing)
  {
    assert jobs[..i + 1][..i] == jobs[..i];
  }

  /** No position of the batch has a failing insert. */
  predicate NoTransportFailures(jobs: seq<Job>, failing: set<nat>) {
    forall i :: 0 <= i < |jobs| ==> i !in failing
  }

  /** A step whose insert cannot fail for transport reasons leaves the posting's id stored. */
  lemma StepStoresId(idOf: JobKey, itemOf: ItemOf, st: RunState, job: Job, index: nat, failing: set<nat>, base: set<string>)
    requires st.store.Keys == base + st.seen && index !in failing
    ensures Step(idOf, itemOf, st, job, index, failing).store.Keys == base + (st.seen + {idOf(job)})
  {
    var id := idOf(job);
    if id !in st.seen && id !in st.store {
      assert Step(idOf, itemOf, st, job, index, failing).store.Keys == st.store.Keys + {id};
    }
  }

  /** Without transport failures the store ends holding every id of the batch. */
  lemma {:induction false} IngestKeysWithoutFailures(idOf: JobKey, itemOf: ItemOf, jobs: seq<Job>, store: Store, failing: set<nat>)
    requires NoTransportFailures(jobs, failing)
    ensures Ingest(idOf, itemOf, jobs, store, failing).store.Keys == store.Keys + Ids(idOf, jobs)
    decreases |jobs|
  {
    if |jobs| > 0 {
      var last := |jobs| - 1;
      var prefix := jobs[..last];
      assert NoTransportFailures(prefix, failing);
      IngestKeysWithoutFailures(idOf, itemOf, prefix, store, failing);
      IngestSeenIds(idOf, itemOf, prefix, store, failing);
      StepStoresId(idOf, itemOf, Ingest(idOf, itemOf, prefix, store, failing), jobs[last], last, failing, store.Keys);
    }
  }

  lemma SetDifferenceOfUnion(a: set<string>, b: set<string>)
    ensures (a + b) - a == b - a
  {
  }

  /** Without transport failures every new id of the batch is stored, and `stored` counts them. */
  lemma IngestWithoutFailures(idOf: JobKey, itemOf: ItemOf, jobs: seq<Job>, store: Store, failing: set<nat>)
    requires NoTransportFailures(jobs, failing)
    ensures Ingest(idOf, itemOf, jobs, store, failing).store.Keys == store.Keys + Ids(idOf, jobs)
    ensures Ingest(idOf, itemOf, jobs, store, failing).stored == |Ids(idOf, jobs) - store.Keys|
  {
    IngestKeysWithoutFailures(idOf, itemOf, jobs, store, failing);
    IngestCountsNewIds(idOf, itemOf, jobs, store, failing);
    SetDifferenceOfUnion(store.Keys, Ids(idOf, jobs));
  }

  /** A batch whose ids are all stored already stores nothing and leaves the store as it was. */
  lemma AllKnownStoresNothing(idOf: JobKey, itemOf: ItemOf, jobs: seq<Job>, store: Store, failing: set<nat>)
    requires Ids(idOf, jobs) <= store.Keys
    ensures Ingest(idOf, itemOf, jobs, store, failing).stored == 0
    ensures Ingest(idOf, itemOf, jobs, store, failing).skipped == |jobs|
    ensures Ingest(idOf, itemOf, jobs, store, failing).store == store
  {
    var r := Ingest(idOf, itemOf, jobs, store, failing);
    IngestNeverOverwrites(idOf, itemOf, jobs, store, failing);
    IngestCountsNewIds(idOf, itemOf, jobs, store, failing);
    assert r.store.Keys == store.Keys;
    assert r.store.Keys - store.Keys == {};
  }

  /**
   Idempotence across runs: re-running a batch against the store a clean run
   produced stores nothing and changes nothing, whatever fails the second time.
   */
  lemma RerunStoresNothing(idOf: JobKey, itemOf: ItemOf, jobs: seq<Job>, store: Store, failing1: set<nat>, failing2: set<nat>)
    requires NoTransportFailures(jobs, failing1)
    ensures var first := Ingest(idOf, itemOf, jobs, store, failing1);
            var second := Ingest(idOf, itemOf, jobs, first.store, failing2);
            second.stored == 0 && second.skipped == |jobs| && second.store == first.store
  {
    IngestWithoutFailures(idOf, itemOf, jobs, store, failing1);
    AllKnownStoresNothing(idOf, itemOf, jobs, Ingest(idOf, itemOf, jobs, store, failing1).store, failing2);
  }

  /** Two postings with the same identity in one batch: one is stored and one is skipped. */
  lemma InBatchDuplicate(idOf: JobKey, itemOf: ItemOf, a: Job, b: Job, store: Store, failing: set<nat>)
    requires idOf(a) == idOf(b)
    requires idOf(a) !in store && 0 !in failing
    ensures Ingest(idOf, itemOf, [a, b], store, failing).stored == 1
    ensures Ingest(idOf, itemOf, [a, b], store, failing).skipped == 1
    ensures Ingest(idOf, itemOf, [a, b], store, failing).store == store[idOf(a) := itemOf(idOf(a), a)]
  {
    var id := idOf(a);
    assert [a, b][..1] == [a];
    assert [a][..0] == [];
    var s0 := RunState({}, 0, 0, store);
    assert Ingest(idOf, itemOf, [], store, failing) == s0;
    var s1 := RunState({id}, 1, 0, store[id := itemOf(id, a)]);
    assert Step(idOf, itemOf, s0, a, 0, failing) == s1;
    assert Ingest(idOf, itemOf, [a], store, failing) == s1;
    assert Step(idOf, itemOf, s1, b, 1, failing) == s1.(skipped := 1);
  }

  /** The event's query, or the default search when it is absent. */
  const DefaultQuery := "software engineer"

  /** The handler's reply: its status, both counters, the sources attempted, and the store afterwards. */
  datatype IngestionReply = IngestionReply(status: int, stored: nat, skipped: nat, sources: seq<string>, store: Store)

  /** The configured country list, or Adzuna's default list when the setting is absent. */
  function Countries(configured: Option<seq<string>>): (r: seq<string>)
    ensures configured.Some? ==> r == configured.value
    ensures configured.None? ==> r == Adzuna.DefaultCountries && |r| == 12 && r[0] == "gb" && r[11] == "mx"
  {
    if configured.Some? then configured.value else Adzuna.DefaultCountries
  }

  /** The postings the run works on: what Adzuna returned, or none when the fetch raised. */
  function AllJobs(query: string, countries: seq<string>, fetch: Adzuna.Fetcher): (r: seq<Job>)
    ensures (forall k :: 0 <= k < |countries| ==> Adzuna.CountryOk(query, countries[k], fetch)) ==>
              r == Adzuna.Concat(Adzuna.CountryBlocks(query, countries, fetch))
    ensures (exists k :: 0 <= k < |countries| && !Adzuna.CountryOk(query, countries[k], fetch)) ==> r == []
    ensures forall i :: 0 <= i < |r| ==> Adzuna.WellFormedAdzunaJob(r[i])
  {
    match Adzuna.FetchAdzuna(query, countries, fetch)
    case None => []
    case Some(jobs) => jobs
  }

  /** The job id the handler gives a posting, with `sha` as the digest. */
  function IdOf(sha: Identity.Digest): JobKey {
    job => JobIdOf(sha, job)
  }

  /** The event's query when present, otherwise the default search. */
  function Query(query: Option<string>): string {
    if query.Some? then query.value else DefaultQuery
  }

  /** What the handler's run over a batch promises: the fold's properties with `MakeItem` as the item. */
  lemma HandlerRun(idOf: JobKey, jobs: seq<Job>, store: Store, failing: set<nat>)
    ensures var r := Ingest(idOf, MakeItem, jobs, store, failing);
            && r.stored + r.skipped == |jobs|
            && (forall k :: k in store ==> k in r.store && r.store[k] == store[k])
            && r.stored == |r.store.Keys - store.Keys|
            && r.stored <= |Ids(idOf, jobs)|
            && (forall k :: k in r.store ==> k in store || k in Ids(idOf, jobs))
            && (NoTransportFailures(jobs, failing) ==> r.store.Keys == store.Keys + Ids(idOf, jobs))
  {
    IngestSummary(idOf, MakeItem, jobs, store, failing);
    IngestStoredAtMostDistinct(idOf, MakeItem, jobs, store, failing);
    IngestNeverOverwrites(idOf, MakeItem, jobs, store, failing);
    if NoTransportFailures(jobs, failing) {
      IngestKeysWithoutFailures(idOf, MakeItem, jobs, store, failing);
    }
  }

  /**
   The ingestion handler: a failed fetch is swallowed and leaves an empty
   batch; the batch is then deduplicated and inserted, and the reply is
   always a success.
   */
  function IngestionHandler(query: Option<string>, configured: Option<seq<string>>, fetch: Adzuna.Fetcher,
                            sha: Identity.Digest, store: Store, failing: set<nat>): (r: IngestionReply)
    ensures r.status == Ok && r.sources == [Adzuna.Source]
    ensures var jobs := AllJobs(Query(query), Countries(configured), fetch);
            && r.stored + r.skipped == |jobs|
            && (Adzuna.FetchAdzuna(Query(query), Countries(configured), fetch).None? ==>
                  r.stored == 0 && r.skipped == 0 && r.store == store)
    ensures forall k :: k in store ==> k in r.store && r.store[k] == store[k]
    ensures r.stored == |r.store.Keys - store.Keys|
    ensures var jobs := AllJobs(Query(query), Countries(configured), fetch);
            && r.stored <= |Ids(IdOf(sha), jobs)|
            && (forall k :: k in r.store ==> k in store || k in Ids(IdOf(sha), jobs))
            && (NoTransportFailures(jobs, failing) ==> r.store.Keys == store.Keys + Ids(IdOf(sha), jobs))
  {
    var jobs := AllJobs(Query(query), Countries(configured), fetch);
    var run := Ingest(IdOf(sha), MakeItem, jobs, store, failing);
    HandlerRun(IdOf(sha), jobs, store, failing);
    IngestionReply(Ok, run.stored, run.skipped, [Adzuna.Source], run.store)
  }
}

=== FILE: jobdescription.dfy ===
/**
 The job-description upload handler: validate title and description, find
 the description column of the job table by name, and insert one row into
 the title column and that column.
 */
module JobDescriptionUpload {
  import opened Wrappers
  import opened Values
  import opened Text
  import opened ColumnSearch
  import opened Warehouse
  import opened Status

  const TitleColumn := "JOB_TITLE"
  const DescCandidates: seq<string> :=
    ["ROLES_AND_RESPONSIBILITIES", "REQUIRED_QUALIFICATIONS", "SKILLS", "EXPERIENCE_REQUIRED"]

  /**
   `find_desc_column` once the column names are fetched: the upper-cased
   column list is returned as the second component; the first is None
   unless the title column is present, and then the first description
   candidate, in candidate order, that is a column.
   */
  function FindDescColumn(names: seq<string>): (r: (Option<string>, seq<string>))
    ensures r.1 == UpperAll(names)
    ensures TitleColumn !in r.1 ==> r.0.None?
    ensures TitleColumn in r.1 ==>
              (r.0.Some? <==> exists k :: 0 <= k < |DescCandidates| && DescCandidates[k] in r.1)
    ensures r.0.Some? ==>
              && TitleColumn in r.1
              && r.0.value in DescCandidates
              && r.0.value in r.1
              && exists k :: 0 <= k < |DescCandidates| && DescCandidates[k] == r.0.value
                             && forall j :: 0 <= j < k ==> DescCandidates[j] !in r.1
  {
    var cols := UpperAll(names);
    if TitleColumn !in cols then (None, cols)
    else (FirstExact(DescCandidates, cols), cols)
  }

  /**
   The description column depends only on which columns the table has, not
   on their order or multiplicity: the search runs over the candidates, and
   the columns are only tested for membership.
   */
  lemma DescColumnIgnoresColumnOrder(names: seq<string>, other: seq<string>)
    requires forall c :: c in UpperAll(names) <==> c in UpperAll(other)
    ensures FindDescColumn(names).0 == FindDescColumn(other).0
  {
    if TitleColumn in UpperAll(names) {
      FirstExactSameMembers(DescCandidates, UpperAll(names), UpperAll(other));
    }
  }

  /** The request body's two fields; None when a key is absent. */
  datatype JobPosting = JobPosting(title: Option<string>, description: Option<string>)

  /** The row written: the chosen description column and the two values. */
  datatype JobRow = JobRow(descColumn: string, title: string, description: string)

  predicate Complete(body: JobPosting) {
    Truthy(body.title) && Truthy(body.description)
  }

  /**
   The JD upload handler, from the parsed body and the state of the
   warehouse. A row is left in the table exactly when the insert is issued
   and writes; the reply is 200 only when the commit does not raise.
   */
  function UploadJobDescription(body: JobPosting, wh: Warehouse): (r: Reply<JobRow>)
    ensures r.status == BadRequest <==> !Complete(body)
    ensures r.status == BadRequest ==> !r.touchedWarehouse && r.inserted.None?
    ensures r.status == Ok || r.status == BadRequest || r.status == ServerError
    ensures r.status == Ok ==> r.inserted.Some?
    ensures r.inserted.Some? <==>
              Complete(body) && wh.Reachable? && FindDescColumn(wh.columnNames).0.Some? && wh.insert.RowWritten()
    ensures r.inserted.Some? && wh.Reachable? ==> (r.status == Ok <==> wh.insert == Committed)
    ensures r.inserted.Some? && wh.Reachable? ==>
              && Some(r.inserted.value.descColumn) == FindDescColumn(wh.columnNames).0
              && r.inserted.value.descColumn in DescCandidates
              && TitleColumn in UpperAll(wh.columnNames)
              && Some(r.inserted.value.title) == body.title
              && Some(r.inserted.value.description) == body.description
    ensures Complete(body) && wh.Reachable? && FindDescColumn(wh.columnNames).0.None? ==>
              r.status == ServerError && r.inserted.None?
    ensures Complete(body) && wh.Reachable? && wh.insert == Committed && FindDescColumn(wh.columnNames).0.Some? ==>
              r.status == Ok
    ensures Complete(body) && (wh.Unreachable? || wh.insert != Committed) ==>
              r.status == ServerError && r.touchedWarehouse
  {
    if !Complete(body) then Reply(BadRequest, false, None)
    else
      match wh
      case Unreachable => Reply(ServerError, true, None)
      case Reachable(names, insert) =>
        var (descCol, _) := FindDescColumn(names);
        if descCol.None? then Reply(ServerError, true, None)
        else if insert == Refused then Reply(ServerError, true, None)
        else
          var row := JobRow(descCol.value, body.title.value, body.description.value);
          Reply(if insert == Committed then Ok else ServerError, true, Some(row))
  }

  /** An incomplete body is answered without looking at the warehouse at all. */
  lemma IncompleteJobIgnoresWarehouse(body: JobPosting, wh1: Warehouse, wh2: Warehouse)
    requires !Complete(body)
    ensures UploadJobDescription(body, wh1) == UploadJobDescription(body, wh2)
  {
  }
}

=== FILE: posting.dfy ===
/**
 A job posting as the ingestion handler sees it, and the pure decisions it
 makes about one posting before persisting it: its identity, the apply
 link, the quality score and the display location.
 */
module Posting {
  import opened Wrappers
  import opened Values
  import Identity

  /** One posting as a fetcher hands it over; any optional field may be None. */
  datatype Job = Job(
    source: string,
    title: Option<string>,
    company: Option<string>,
    city: Option<string>,
    country: string,
    description: string,
    applyUrl: Option<string>,
    redirectUrl: Option<string>,
    companyUrl: Option<string>,
    url: Option<string>,
    salaryMin: Option<real>,
    salaryMax: Option<real>)

  /** The record written to the posting store (creation time and coordinates are not modelled). */
  datatype Item = Item(
    jobId: string,
    title: Option<string>,
    company: Option<string>,
    city: Option<string>,
    country: string,
    location: string,
    applyUrl: Option<string>,
    salaryMin: Option<real>,
    salaryMax: Option<real>,
    qualityScore: int,
    source: string,
    description: string)

  function JobIdOf(sha: Identity.Digest, job: Job): string {
    Identity.JobId(sha, Some(job.source), job.title, job.company, job.city, Some(job.country))
  }

  /** The link fields in the order the handler prefers them. */
  function ApplyLinks(job: Job): seq<Option<string>> {
    [job.applyUrl, job.redirectUrl, job.companyUrl, job.url]
  }

  /**
   `apply_url or redirect_url or company_url or url`: the first truthy link
   in priority order; when none is truthy, Python's `or` yields the last
   operand, so the result is the (falsy) generic link, None or "".
   */
  function NormalizeApplyUrl(job: Job): (url: Option<string>)
    ensures url in ApplyLinks(job)
    ensures Truthy(url) <==> exists k :: 0 <= k < 4 && Truthy(ApplyLinks(job)[k])
    ensures Truthy(url) ==>
              exists k :: 0 <= k < 4 && ApplyLinks(job)[k] == url
                          && forall j :: 0 <= j < k ==> !Truthy(ApplyLinks(job)[j])
    ensures !Truthy(url) ==> url == job.url
  {
    var links := ApplyLinks(job);
    assert links[0] == job.applyUrl && links[1] == job.redirectUrl && links[2] == job.companyUrl;
    if Truthy(job.applyUrl) then job.applyUrl
    else if Truthy(job.redirectUrl) then job.redirectUrl
    else if Truthy(job.companyUrl) then job.companyUrl
    else job.url
  }

  /** With every link missing there is no apply link. */
  lemma NoLinksNoApplyUrl(job: Job)
    requires job.applyUrl.None? && job.redirectUrl.None? && job.companyUrl.None? && job.url.None?
    ensures NormalizeApplyUrl(job).None?
  {
  }

  const ApplyUrlWeight := 50
  const SalaryWeight := 30
  const CompanyWeight := 10
  const CityWeight := 10

  /** Every signal the quality score rewards is present. */
  predicate AllSignals(applyUrl: Option<string>, salaryMin: Option<real>, salaryMax: Option<real>,
                       company: Option<string>, city: Option<string>) {
    Truthy(applyUrl) && (TruthyNumber(salaryMin) || TruthyNumber(salaryMax)) && Truthy(company) && Truthy(city)
  }

  /** No signal the quality score rewards is present. */
  predicate NoSignals(applyUrl: Option<string>, salaryMin: Option<real>, salaryMax: Option<real>,
                      company: Option<string>, city: Option<string>) {
    !Truthy(applyUrl) && !TruthyNumber(salaryMin) && !TruthyNumber(salaryMax) && !Truthy(company) && !Truthy(city)
  }

  /** The additive quality score; each input counts when it is truthy. */
  function ComputeQuality(applyUrl: Option<string>, salaryMin: Option<real>, salaryMax: Option<real>,
                          company: Option<string>, city: Option<string>): (score: int)
    ensures 0 <= score <= 100
    ensures score % 10 == 0
    ensures score == 0 <==> NoSignals(applyUrl, salaryMin, salaryMax, company, city)
    ensures score == 100 <==> AllSignals(applyUrl, salaryMin, salaryMax, company, city)
  {
    var score := 0;
    var score := if Truthy(applyUrl) then score + ApplyUrlWeight else score;
    var score := if TruthyNumber(salaryMin) || TruthyNumber(salaryMax) then score + SalaryWeight else score;
    var score := if Truthy(company) then score + CompanyWeight else score;
    if Truthy(city) then score + CityWeight else score
  }

  /**
   Monotonicity: if every input that was truthy stays truthy, the score does
   not drop; in particular making any one input truthy never lowers it.
   */
  lemma QualityMonotone(a1: Option<string>, lo1: Option<real>, hi1: Option<real>, c1: Option<string>, y1: Option<string>,
                        a2: Option<string>, lo2: Option<real>, hi2: Option<real>, c2: Option<string>, y2: Option<string>)
    requires Truthy(a1) ==> Truthy(a2)
    requires TruthyNumber(lo1) || TruthyNumber(hi1) ==> TruthyNumber(lo2) || TruthyNumber(hi2)
    requires Truthy(c1) ==> Truthy(c2)
    requires Truthy(y1) ==> Truthy(y2)
    ensures ComputeQuality(a1, lo1, hi1, c1, y1) <= ComputeQuality(a2, lo2, hi2, c2, y2)
  {
  }

  /** Each signal contributes exactly its weight, whatever the others are. */
  lemma QualityWeights(a: Option<string>, lo: Option<real>, hi: Option<real>, c: Option<string>, y: Option<string>,
                       present: string, amount: real)
    requires |present| > 0 && amount != 0.0
    ensures ComputeQuality(Some(present), lo, hi, c, y) == ComputeQuality(None, lo, hi, c, y) + 50
    ensures ComputeQuality(a, Some(amount), None, c, y) == ComputeQuality(a, None, None, c, y) + 30
    ensures ComputeQuality(a, None, Some(amount), c, y) == ComputeQuality(a, None, None, c, y) + 30
    ensures ComputeQuality(a, lo, hi, Some(present), y) == ComputeQuality(a, lo, hi, None, y) + 10
    ensures ComputeQuality(a, lo, hi, c, Some(present)) == ComputeQuality(a, lo, hi, c, None) + 10
  {
  }

  /** A zero salary or an empty string counts as absent. */
  lemma FalsyInputsAddNothing(a: Option<string>, lo: Option<real>, hi: Option<real>, c: Option<string>, y: Option<string>)
    ensures ComputeQuality(a, Some(0.0), Some(0.0), c, y) == ComputeQuality(a, None, None, c, y)
    ensures ComputeQuality(Some(""), lo, hi, Some(""), Some("")) == ComputeQuality(None, lo, hi, None, None)
  {
  }

  /**
   The display location: `"city, country"` when the city is truthy, the bare
   country otherwise.
   */
  function Location(city: Option<string>, country: string): (loc: string)
    ensures |country| <= |loc| && loc[|loc| - |country|..] == country
    ensures Truthy(city) <==> |loc| > |country|
    ensures Truthy(city) ==> |loc| == |city.value| + 2 + |country|
                             && loc[..|city.value| + 2] == city.value + ", "
  {
    if Truthy(city) then city.value + ", " + country else country
  }

  /**
   The store record built from one posting under its id: the posting's
   fields copied, the display location, the chosen apply link and the
   quality score of that link and the posting's other signals.
   */
  function MakeItem(jobId: string, job: Job): (r: Item)
    ensures r.jobId == jobId && r.title == job.title && r.company == job.company && r.city == job.city
            && r.country == job.country && r.source == job.source && r.description == job.description
            && r.salaryMin == job.salaryMin && r.salaryMax == job.salaryMax
    ensures |job.country| <= |r.location| && r.location[|r.location| - |job.country|..] == job.country
    ensures Truthy(job.city) <==> |r.location| > |job.country|
    ensures r.applyUrl in ApplyLinks(job)
    ensures Truthy(r.applyUrl) <==> exists k :: 0 <= k < 4 && Truthy(ApplyLinks(job)[k])
    ensures 0 <= r.qualityScore <= 100 && r.qualityScore % 10 == 0
    ensures r.qualityScore == 0 <==> NoSignals(r.applyUrl, job.salaryMin, job.salaryMax, job.company, job.city)
    ensures r.qualityScore == 100 <==> AllSignals(r.applyUrl, job.salaryMin, job.salaryMax, job.company, job.city)
    ensures r.location == Location(job.city, job.country) && r.applyUrl == NormalizeApplyUrl(job)
    ensures r.qualityScore == ComputeQuality(r.applyUrl, job.salaryMin, job.salaryMax, job.company, job.city)
  {
    var applyUrl := NormalizeApplyUrl(job);
    Item(jobId, job.title, job.company, job.city, job.country, Location(job.city, job.country), applyUrl,
         job.salaryMin, job.salaryMax,
         ComputeQuality(applyUrl, job.salaryMin, job.salaryMax, job.company, job.city),
         job.source, job.description)
  }
}

=== FILE: status.dfy ===
/** The HTTP status codes the three handlers answer with. */
module Status {
  const Ok := 200
  const BadRequest := 400
  const ServerError := 500
}

=== FILE: text.dfy ===
/**
 Character-level string operations used by the handlers: case mapping
 (`str.lower`, `str.upper`), whitespace stripping (`str.strip`), prefix
 slicing (`s[:n]`) and the substring test (`needle in hay`). Case mapping
 and whitespace are the ASCII subset of Python's Unicode tables.
 */
module Text {

  predicate IsAsciiUpper(c: char) {
    'A' <= c <= 'Z'
  }

  predicate IsAsciiLower(c: char) {
    'a' <= c <= 'z'
  }

  function LowerChar(c: char): char {
    if IsAsciiUpper(c) then (c as int + 32) as char else c
  }

  function UpperChar(c: char): char {
    if IsAsciiLower(c) then (c as int - 32) as char else c
  }

  function Lower(s: string): string {
    seq(|s|, i requires 0 <= i < |s| => LowerChar(s[i]))
  }

  function Upper(s: string): (r: string)
    ensures forall i :: 0 <= i < |r| ==> !IsAsciiLower(r[i])
  {
    seq(|s|, i requires 0 <= i < |s| => UpperChar(s[i]))
  }

  /** Upper-cases every name of a column listing, as both upload handlers do. */
  function UpperAll(names: seq<string>): (r: seq<string>)
    ensures |r| == |names|
    ensures forall i :: 0 <= i < |names| ==> r[i] == Upper(names[i])
  {
    seq(|names|, i requires 0 <= i < |names| => Upper(names[i]))
  }

  /** The whitespace `str.strip()` removes, restricted to ASCII. */
  predicate IsSpace(c: char) {
    c == ' ' || '\t' <= c <= '\r' || '\U{1c}' <= c <= '\U{1f}'
  }

  /** `s.lstrip()`: drops the leading whitespace, and only that. */
  function StripLeft(s: string): (r: string)
    ensures |r| <= |s| && r == s[|s| - |r|..]
    ensures forall i :: 0 <= i < |s| - |r| ==> IsSpace(s[i])
    ensures r == [] || !IsSpace(r[0])
    decreases |s|
  {
    if |s| > 0 && IsSpace(s[0]) then
      var rest := s[1..];
      var r := StripLeft(rest);
      assert forall j :: 0 <= j < |rest| - |r| ==> s[j + 1] == rest[j];
      r
    else s
  }

  /** `s.rstrip()`: drops the trailing whitespace, and only that. */
  function StripRight(s: string): (r: string)
    ensures |r| <= |s| && r == s[..|r|]
    ensures forall i :: |r| <= i < |s| ==> IsSpace(s[i])
    ensures r == [] || !IsSpace(r[|r| - 1])
    decreases |s|
  {
    if |s| > 0 && IsSpace(s[|s| - 1]) then
      var r := StripRight(s[..|s| - 1]);
      assert forall i :: |r| <= i < |s| - 1 ==> s[i] == s[..|s| - 1][i];
      r
    else s
  }

  /**
   `s.strip()`: the slice of `s` that starts after its leading whitespace
   and ends before its trailing whitespace; it neither starts nor ends with
   whitespace.
   */
  function Strip(s: string): (r: string)
    ensures var a := |s| - |StripLeft(s)|;
            && a + |r| <= |s|
            && r == s[a..a + |r|]
            && (forall i :: 0 <= i < a ==> IsSpace(s[i]))
            && (forall i :: a + |r| <= i < |s| ==> IsSpace(s[i]))
    ensures r == [] || (!IsSpace(r[0]) && !IsSpace(r[|r| - 1]))
  {
    var left := StripLeft(s);
    var r := StripRight(left);
    StripSlices(s, left, r);
    StripEnds(left, r);
    r
  }

  /** The strip of `s` is a slice of it whose surroundings are whitespace. */
  lemma {:induction false} StripSlices(s: string, left: string, r: string)
    requires left == StripLeft(s) && r == StripRight(left)
    ensures var a := |s| - |left|;
            && a + |r| <= |s|
            && r == s[a..a + |r|]
            && (forall i :: 0 <= i < a ==> IsSpace(s[i]))
            && (forall i :: a + |r| <= i < |s| ==> IsSpace(s[i]))
  {
    var a := |s| - |left|;
    assert left == s[a..];
    assert r == left[..|r|];
    forall i | a + |r| <= i < |s|
      ensures IsSpace(s[i])
    {
      assert s[i] == left[i - a];
    }
  }

  /** Stripping the right of a left-stripped string leaves neither end a space. */
  lemma {:induction false} StripEnds(left: string, r: string)
    requires r == StripRight(left) && (left == [] || !IsSpace(left[0]))
    ensures r == [] || (!IsSpace(r[0]) && !IsSpace(r[|r| - 1]))
  {
    if r != [] {
      assert r[0] == left[0];
    }
  }

  /** Lower-casing keeps the length, leaves no ASCII upper-case letter, and keeps non-space ends non-space. */
  lemma {:induction false} LowerTrimmed(t: string)
    requires t == [] || (!IsSpace(t[0]) && !IsSpace(t[|t| - 1]))
    ensures |Lower(t)| == |t|
    ensures forall i :: 0 <= i < |t| ==> !IsAsciiUpper(Lower(t)[i]) && LowerChar(Lower(t)[i]) == LowerChar(t[i])
    ensures Lower(t) == [] || (!IsSpace(Lower(t)[0]) && !IsSpace(Lower(t)[|t| - 1]))
  {
  }

  /** A string that neither starts nor ends with whitespace is its own strip. */
  lemma StripTrimmed(s: string)
    requires s == [] || (!IsSpace(s[0]) && !IsSpace(s[|s| - 1]))
    ensures Strip(s) == s
  {
  }

  /** Lower-casing a string with no ASCII upper-case letter leaves it unchanged. */
  lemma LowerOfLower(s: string)
    requires forall i :: 0 <= i < |s| ==> !IsAsciiUpper(s[i])
    ensures Lower(s) == s
  {
  }

  /** `s[:n]`: the first `n` characters, or all of `s` when it is shorter. */
  function Truncate(s: string, n: nat): (r: string)
    ensures |r| == if |s| <= n then |s| else n
    ensures r == s[..|r|]
  {
    if |s| <= n then s else s[..n]
  }

  /** `needle` occurs in `hay` starting at position `i`. */
  predicate OccursAt(hay: string, needle: string, i: nat) {
    i + |needle| <= |hay| && hay[i..i + |needle|] == needle
  }

  /** Python's `needle in hay` on two strings. */
  predicate Contains(hay: string, needle: string) {
    exists i: nat | i <= |hay| :: OccursAt(hay, needle, i)
  }

  lemma ContainsItself(s: string)
    ensures Contains(s, s)
  {
    assert OccursAt(s, s, 0);
  }

  /** Only a string at least as long as the needle can contain it. */
  lemma ContainsLonger(hay: string, needle: string)
    requires Contains(hay, needle)
    ensures |needle| <= |hay|
  {
  }
}

=== FILE: values.dfy ===
/**
 Python's view of the loosely typed values the handlers read out of JSON
 bodies and API records: truthiness tests (`if x:` / `x or y`) and the
 way an f-string renders a value that may be None.
 */
module Values {
  import opened Wrappers

  /** `bool(v)` for an optional string: None and "" are false. */
  predicate Truthy(v: Option<string>) {
    v.Some? && |v.value| > 0
  }

  /** `bool(v)` for an optional number: None and zero are false. */
  predicate TruthyNumber(v: Option<real>) {
    v.Some? && v.value != 0.0
  }

  /** `f"{v}"` for an optional string: None prints as the four letters "None". */
  function Render(v: Option<string>): string {
    match v
    case None => "None"
    case Some(s) => s
  }
}

=== FILE: warehouse.dfy ===
/**
 What the two upload handlers need from the data warehouse, and the shape
 of their replies. The connection, credential lookup and schema query are
 not modelled; what they deliver is an input.
 */
module Warehouse {
  import opened Wrappers

  /**
   What happens to the insert once it is issued. `Committed`: the row is
   written and every later call in the same `try` returns. `Refused`: the
   statement raises and nothing is written. `CommittedThenRaised`: the row
   is written (the session autocommits, or the commit went through) and a
   later call in the same `try` (`commit`, `close`) raises, so the
   catch-all answers 500 although the row stays.
   */
  datatype InsertOutcome = Committed | Refused | CommittedThenRaised {
    predicate RowWritten() {
      this != Refused
    }
  }

  /**
   The warehouse as one invocation finds it: unreachable (connecting or
   listing columns raises), or reachable with the column names the schema
   query returns and what happens to the insert.
   */
  datatype Warehouse = Unreachable | Reachable(columnNames: seq<string>, insert: InsertOutcome)

  /**
   A handler's reply: the HTTP status, whether the warehouse was contacted
   at all, and the row left in the table, if any.
   */
  datatype Reply<R> = Reply(status: int, touchedWarehouse: bool, inserted: Option<R>)
}

=== FILE: wrappers.dfy ===
/** An optional value: the model's stand-in for a Python value that may be None. */
module Wrappers {

  datatype Option<+T> = None | Some(value: T)
}
